=== FILE: README.md ===
# GNS3 server and Docker daemon configuration modules, modelled in Dafny

The repository provides two Ansible modules that keep a service configuration
file in line with the parameters a playbook passes to them:

- `gns3server_daemon_config` manages the INI-style GNS3 server configuration
  (sections `Server`, `IOU`, `Qemu`, ... each holding string keys);
- `docker_daemon_config` manages the flat JSON Docker daemon configuration
  (`data-root`, `dns`, `dns-search`, ...).

Each module has a merge step (`maj_config`) and a controller (`run_module`).
The merge step builds the configuration the module wants on disk from the
current one and the module parameters. The controller decides whether to read
the existing file, whether to write, and what to report: `changed`, a failure,
or nothing.

The model is functional. Configurations are maps. The module parameters are a
sequence of `(name, value)` pairs in the order Python enumerates them, with
`None` for a parameter left unset. A merge is the list of writes the
parameters produce, applied in order to a starting configuration:

- for GNS3, the default skeleton when there is no `Server` section, otherwise
  the current configuration;
- for Docker, a configuration seeded with the default `data-root` when the
  current one is empty, otherwise the current configuration.

Dafny values are immutable. The `copy.deepcopy` that keeps the caller's
configuration untouched therefore holds by construction: a merge returns a
new map and never changes its argument.

That list of writes gives every merge a declarative partner: a key ends up
with the last value written to it, or keeps its starting value when nothing
writes it (`WriteLists.LastWrite`).

Files:

- `wrappers.dfy`: `Option`.
- `text.dfy`: substring search (Python's `str.count(x) > 0`), `split`/`join`
  on a character, and the decimal `str()` of integers.
- `params.dfy`: parameter values, Python `str()` and truthiness, parameter
  lookup, and the schema entry (`KeyList`): a real tuple of names, or a bare
  string written as a one-element "tuple".
- `write_lists.dfy`: last-write-wins semantics of a list of writes, and its
  application to a flat map.
- `reconciliation.dfy`: the decision procedure both controllers share after
  their early exits.
- `gns3server.dfy`: the GNS3 merge and controller.
- `docker.dfy`: the Docker merge and controller.

Behaviour of the code the model keeps:

- `split(',')` keeps the pieces untrimmed and keeps empty pieces
  (library/docker_daemon_config.py:178, `Text.Split`).
- The Docker boolean kind is the empty tuple `()`
  (library/docker_daemon_config.py:165-166), so no name reaches the
  `eval(...capitalize())` branch at library/docker_daemon_config.py:179-180.
- The GNS3 skeleton replaces the current configuration whenever it has no
  `Server` section, not only when it is empty
  (library/gns3server_daemon_config.py:267). Any other sections it held are
  dropped (`Gns3Server.MergeWithoutServer`).
- `('vpcs_path')` (library/gns3server_daemon_config.py:309-311) and
  `('data-root')` (library/docker_daemon_config.py:159-160) are plain strings,
  not tuples. Their `.count(option)` is a substring count, so any substring of
  them matches. The model keeps this as `KeyList.Bare`. None of the declared
  parameter names is affected (`Gns3Server.UnlistedNotInVpcs`,
  `DockerDaemon.DeclaredKinds`).
- The GNS3 controller reports a write failure with the Docker message
  "Ecriture du fichier de configuration du service docker impossible"
  (library/gns3server_daemon_config.py:401). `Reconciliation.Message` uses that
  text for both modules.

## Model

| member | source | states |
|---|---|---|
| Text.OccursIffAt | library/gns3server_daemon_config.py:326 | the recursive substring test used for `.count(option) > 0` holds exactly when the option sits at some position of the entry |
| Text.MissingCharNeverOccurs | library/docker_daemon_config.py:174 | an option containing a character the bare entry lacks never matches it |
| Text.LongerNeverOccurs | library/docker_daemon_config.py:174 | an option longer than the bare entry never matches it |
| Text.Split | library/docker_daemon_config.py:178 | `split(',')` yields one more piece than there are commas, and no piece contains a comma |
| Text.JoinSplit | library/docker_daemon_config.py:178 | splitting loses nothing: joining the pieces with the separator gives back the original text |
| Text.SplitJoin | library/docker_daemon_config.py:178 | splitting the join of comma-free pieces gives back exactly those pieces, in order |
| Text.SplitAfterPiece | library/docker_daemon_config.py:178 | a comma-free piece followed by a comma splits off as the first piece |
| Text.SplitWithoutSeparator | library/docker_daemon_config.py:178 | a value with no comma is stored as the one-element list of itself |
| Text.NatToDecimal | library/gns3server_daemon_config.py:329 | `str()` of a non-negative integer (such as the int `port`) is non-empty, all digits, with no leading zero unless it is 0 |
| Text.DecimalRoundTrip | library/gns3server_daemon_config.py:329 | the decimal text stored for an integer reads back as the same number |
| Text.NegativeDecimal | library/gns3server_daemon_config.py:329 | `str()` of a negative integer is `-` followed by the decimal text of its magnitude |
| Params.Render | library/gns3server_daemon_config.py:329 | `str()` keeps a string as it is, turns a boolean into exactly `True` or `False`, and turns an integer into decimal text that starts with `-` iff it is negative; a non-negative integer gives all digits reading back as the integer, and a negative one gives `-` followed by the decimal text of its magnitude |
| Params.Truthy | library/gns3server_daemon_config.py:380 | an unset `force` is false, and a boolean `force` is true exactly when it is `True` |
| Params.Lists | library/gns3server_daemon_config.py:326 | `.count(option) > 0` holds on a tuple exactly when one of its names equals the option, and on a bare string exactly when the option occurs at some position of it |
| Params.LookupUnset | library/gns3server_daemon_config.py:268 | a name whose every entry is `None` reads as `None` |
| Params.LookupFinds | library/gns3server_daemon_config.py:268-269 | with unique parameter names, `parametres[name]` is the value supplied under that name |
| Params.LookupAbsent | library/gns3server_daemon_config.py:268 | a name that is not among the parameters reads as `None` |
| Params.LookupIndex | library/gns3server_daemon_config.py:380 | a value read for a name was supplied under that name at some position |
| Params.LookupSkips | library/gns3server_daemon_config.py:268 | dropping a parameter with another name does not change what is read for a name |
| WriteLists.LastWriteAt | library/docker_daemon_config.py:170-180 | the last assignment to a key in the loop is the value the key is left with |
| WriteLists.LastWriteConcat | library/docker_daemon_config.py:170-180 | for the assignments of two consecutive stretches of the loop, the later stretch's assignment wins |
| WriteLists.CollectOwner | library/gns3server_daemon_config.py:314-330 | when only one parameter assigns a key, that parameter's assignment decides it |
| WriteLists.CollectUntouched | library/gns3server_daemon_config.py:314-330 | when no parameter assigns a key, the loop does not assign it |
| WriteLists.CollectSkip | library/gns3server_daemon_config.py:314-316 | a parameter that assigns nothing can be removed from the loop without effect |
| WriteLists.ApplyFlat | library/docker_daemon_config.py:170-180 | assigning keys of the deep-copied configuration never removes a key |
| WriteLists.ApplyFlatGet | library/docker_daemon_config.py:170-180 | after the loop, each key holds its last assigned value, or its earlier value when nothing assigned it |
| WriteLists.ApplyFlatTwice | library/docker_daemon_config.py:170-180 | running the same assignments over their own result changes nothing |
| Reconciliation.Reconcile | library/docker_daemon_config.py:218-247 | an existing file without `force` exits unchanged; the file is read only when it exists and `force` is set; a write is attempted exactly when the merge differs from the starting configuration; the outcome is `changed` iff that write succeeds and a failure iff it fails |
| Reconciliation.Message | library/gns3server_daemon_config.py:371-401 | the two failure messages are told apart by their first letter, and the interface message is exactly `Interface [`, then the interface name verbatim, then `] introuvable` |
| Gns3Server.DataRootChoice | library/gns3server_daemon_config.py:268-271 | the skeleton's storage root is the supplied `data-root`, or `/opt/gns3` when `data-root` is `None` |
| Gns3Server.SkeletonPaths | library/gns3server_daemon_config.py:272-285 | the default configuration has exactly the sections `Server`, `IOU` and `Qemu`, and stores each storage directory at root + "/" + directory |
| Gns3Server.SkeletonFollowsRoot | library/gns3server_daemon_config.py:277 | the skeleton's five paths are exactly what a `data-root` of the same root assigns: applying that fan-out to the skeleton changes nothing |
| Gns3Server.ParamWrites | library/gns3server_daemon_config.py:314-330 | an unset parameter assigns nothing; `interface` assigns only `Server.host`, to the address; `data-root` assigns the five `Server` paths under its value, in directory order; any other parameter assigns at most its own key, to its `str()`, in the first section that lists it, and does so exactly when some section lists it |
| Gns3Server.Put | library/gns3server_daemon_config.py:326-329 | storing a key creates its section if missing, gives the key the value, leaves every other section and key as it was, and adds no other section |
| Gns3Server.FindSection | library/gns3server_daemon_config.py:325-330 | the section picked for an option is the first section of the table listing it; none is picked only when no section lists it |
| Gns3Server.ApplyWrites | library/gns3server_daemon_config.py:326-329 | storing options keeps every existing section and creates exactly the sections written to |
| Gns3Server.Merge | library/gns3server_daemon_config.py:261-331 | the merged configuration always has a `Server` section |
| Gns3Server.ApplyWritesGet | library/gns3server_daemon_config.py:314-330 | after the loop each section/key holds the last value stored there, or its earlier value |
| Gns3Server.MergeWithServer | library/gns3server_daemon_config.py:264-267 | with a `Server` section present, the current configuration is updated in place: its sections plus exactly the written ones remain, and each key holds its last stored value or its current one |
| Gns3Server.MergeWithoutServer | library/gns3server_daemon_config.py:267-285 | without a `Server` section the current configuration is discarded: the result equals the merge into an empty configuration, over the skeleton's `Server`, `IOU` and `Qemu` sections |
| Gns3Server.MergeIdempotent | library/gns3server_daemon_config.py:261-331 | merging the merged configuration again with the same parameters and address gives it back unchanged |
| Gns3Server.PathWritesTargets | library/gns3server_daemon_config.py:321-324 | `data-root` sets each of the five `*_path` keys of `Server` to root + "/" + directory, and no other key |
| Gns3Server.FirstSectionOrder | library/gns3server_daemon_config.py:288-312 | the table is searched in the order Server, Dynamips, IOU, Qemu, VPCS |
| Gns3Server.ServerArgumentsRoute | library/gns3server_daemon_config.py:289-299 | `port`, `auth`, `user` and `password` are stored in `Server` |
| Gns3Server.QemuArgumentsNotEarlier | library/gns3server_daemon_config.py:289-308 | the four KVM/acceleration options are listed by `Qemu` and by no earlier section |
| Gns3Server.QemuArgumentsRoute | library/gns3server_daemon_config.py:306-308 | the four KVM/acceleration options are stored in `Qemu` |
| Gns3Server.UnlistedNotInServer | library/gns3server_daemon_config.py:289-299 | `config-file`, `force`, `interface`, `data-root` and `debug` are not `Server` keys |
| Gns3Server.UnlistedNotInOtherTuples | library/gns3server_daemon_config.py:300-308 | those five names are not listed by `Dynamips`, `IOU` or `Qemu` |
| Gns3Server.UnlistedNotInVpcs | library/gns3server_daemon_config.py:309-311 | none of those five names is a substring of the bare string `'vpcs_path'` |
| Gns3Server.UnlistedArgumentsRoute | library/gns3server_daemon_config.py:325-330 | `config-file`, `force`, `interface`, `data-root` and `debug` are listed by no section, so the generic storing step never stores them |
| Gns3Server.MergeSetsHost | library/gns3server_daemon_config.py:317-320 | a supplied `interface` sets `Server.host` to the interface's address |
| Gns3Server.MergeFansOutDataRoot | library/gns3server_daemon_config.py:321-324 | a supplied `data-root` sets all five data paths under `Server` from it, whether or not the skeleton was used |
| Gns3Server.IourcFollowsSkeleton | library/gns3server_daemon_config.py:268-280 | `IOU.iourc_path` is derived from `data-root` only when the skeleton is built, and is otherwise left as it was |
| Gns3Server.MergeStoresOption | library/gns3server_daemon_config.py:325-330 | any other supplied option the table lists is stored as its `str()` under the first section listing it, and that section exists afterwards |
| Gns3Server.MergeSkipsInert | library/gns3server_daemon_config.py:314-316 | a parameter valued `None`, or one no section lists, has no effect on the merge |
| Gns3Server.FailureQuotesInterface | library/gns3server_daemon_config.py:370-371 | a run on a host without the supplied interface fails before reading the file, with a message quoting the interface's `str()` after `Interface [` |
| Gns3Server.Run | library/gns3server_daemon_config.py:366-407 | check mode exits unchanged; a missing interface fails with its name in the message; an existing file without `force` exits unchanged; otherwise the merge of the loaded configuration (or of an empty one when there is no file) is the configuration handed to the writer, exactly when it differs; the run is unchanged exactly when it does not differ, and `changed` or a write failure follows from the write's outcome |
| Gns3Server.RerunIsNoOp | library/gns3server_daemon_config.py:398-407 | a forced run over a file that reads back as the previous merge with the same parameters and address neither writes nor reports a change |
| Gns3Server.ExampleWrites | library/gns3server_daemon_config.py:317-330 | an `interface` followed by `require_kvm: false` writes the host address, then `Qemu.require_kvm = "False"` |
| Gns3Server.FreshKeepsDefault | library/gns3server_daemon_config.py:267-285 | with no configuration, a key no parameter writes keeps the skeleton's value for the parameters' data root |
| Gns3Server.FreshTakesWrite | library/gns3server_daemon_config.py:314-330 | with no configuration, a key some parameter writes holds the last value written to it |
| Gns3Server.FreshHostWritesLand | library/gns3server_daemon_config.py:317-330 | with no configuration, a host-address write followed by `require_kvm = "False"` sets both keys |
| Gns3Server.FreshHostExample | library/gns3server_daemon_config.py:267-330 | with no file, an interface and `require_kvm: false` set the host address and `require_kvm` "False", and every other key is the skeleton's on `/opt/gns3` |
| DockerDaemon.Seeded | library/docker_daemon_config.py:152-155 | an empty configuration becomes exactly `{"data-root": "/var/lib/docker"}`; a non-empty one is kept as it is |
| DockerDaemon.ParamWrites | library/docker_daemon_config.py:170-180 | a parameter assigns only the key of its own name, at most twice; an unset one assigns nothing; a set one assigns exactly when a kind lists it; for the string kind the first assignment is its `str()`, and the only one when the list kind does not list it; for the list kind the last assignment is a list of comma-free pieces that joined by commas give back its `str()`, which is exactly `split(',')` |
| DockerDaemon.DataRootWrite | library/docker_daemon_config.py:175-176 | a supplied `data-root` assigns its `str()` once and nothing else |
| DockerDaemon.Merge | library/docker_daemon_config.py:146-182 | the merged configuration is never empty |
| DockerDaemon.ParamWritesOwnKey | library/docker_daemon_config.py:170-180 | a parameter only ever assigns the key of its own name |
| DockerDaemon.MergeContents | library/docker_daemon_config.py:149-180 | each key holds its last assigned value, else its current value; an empty configuration counts as holding only `data-root: /var/lib/docker` |
| DockerDaemon.MergeKeepsUnset | library/docker_daemon_config.py:170-172 | a key no parameter supplies a value for keeps its current value, or the seeded default when the configuration was empty |
| DockerDaemon.MergeStoresDataRoot | library/docker_daemon_config.py:175-176 | a supplied `data-root` is stored as its `str()` |
| DockerDaemon.MergeSplitsList | library/docker_daemon_config.py:177-178 | a supplied `dns` or `dns-search` is stored as the list of its comma-separated pieces |
| DockerDaemon.MergeNeverAddsControlKeys | library/docker_daemon_config.py:158-180 | `config-file`, `force` and `debug` are in the result iff they were in the configuration, and keep their current value (so an on-disk `"debug": true` survives the merge) |
| DockerDaemon.OnlyDataRootIsString | library/docker_daemon_config.py:158-160 | the bare string `'data-root'`, searched as a substring, matches none of `dns`, `dns-search`, `config-file`, `force`, `debug` |
| DockerDaemon.ListNamesKind | library/docker_daemon_config.py:161-163 | `dns` and `dns-search` are of the list kind and not of the string kind |
| DockerDaemon.ControlNamesKind | library/docker_daemon_config.py:158-163 | `config-file`, `force` and `debug` are of neither the string nor the list kind |
| DockerDaemon.DeclaredKinds | library/docker_daemon_config.py:158-163 | of the declared names, exactly `data-root` is of the string kind and exactly `dns` and `dns-search` are of the list kind |
| DockerDaemon.MergeIdempotent | library/docker_daemon_config.py:146-182 | merging the merged configuration again with the same parameters gives it back unchanged |
| DockerDaemon.Run | library/docker_daemon_config.py:209-247 | check mode exits unchanged; an existing file without `force` exits unchanged; otherwise the merge of the loaded configuration (or of an empty one) is the configuration handed to the writer, exactly when it differs; the run is unchanged exactly when it does not differ, and `changed` or the write failure follows from the write's outcome |
| DockerDaemon.RerunIsNoOp | library/docker_daemon_config.py:237-247 | a forced run over a file that reads back as the previous merge with the same parameters neither writes nor reports a change |
| DockerDaemon.FreshDataRootExample | library/docker_daemon_config.py:151-176 | with no file, `data-root` alone yields exactly `{"data-root": root}`, which is written and reported as changed |
| DockerDaemon.CoincidingDataRootExample | library/docker_daemon_config.py:218-247 | a forced run whose `data-root` equals the one on disk is unchanged and writes nothing |
| DockerDaemon.SplitTwoServers | library/docker_daemon_config.py:85 | two comma-free servers joined by a comma, as in the documented input `"8.8.8.8,8.8.8.4"` (whose sample output at line 116 shows `8.8.8.8`, `8.8.4.4`), are stored as exactly those two servers, in order |

## Left out

- Network interfaces. `get_ip_address` and `verif_interface_reseau` (the `ioctl` address lookup and the interface check) are inputs of the model: the address `addr` and the flag `interfaceExists`.
- File I/O. `lecture_config`, `ecriture_config` and `os.path.exists` are inputs: whether the file exists, the configuration read, and whether the write succeeds. The INI and JSON text formats, `configparser`'s lower-casing of keys and the JSON indentation are not modelled.
- Parse errors while reading a file escape as uncaught exceptions in the code. The model takes the configuration read as given.
- Docker JSON values other than strings and string lists are kept as `Opaque` canonical text. Python compares them structurally.
- The Docker boolean branch (`eval(value.capitalize())`) is unreachable because the boolean kind is empty, so it is not modelled.
- The `debug` payload (`parametres`, `config_actuelle`, `config_daemon` in the result) is left out. It is diagnostic only and never affects control flow.
- `AnsibleModule` argument validation is left out: type conversion, the required `interface`, the defaults of `config-file`, `force` and `debug`. Parameters arrive already typed.
- `Params.Render`: a non-string `data-root`, `interface` or list value is rendered with `str()`. The code would raise a `TypeError` on the `+` of `data-root` or on `ifname[:15]`, and an `AttributeError` on `.split`; none of these can happen after the module's own type conversion to strings.
- `Gns3Server.Run`: the address `addr` is taken as resolvable whenever `interfaceExists` holds. `get_ip_address` (library/gns3server_daemon_config.py:224-232) raises an uncaught `OSError` from the `SIOCGIFADDR` ioctl for an interface with no IPv4 address; it is called inside `maj_config` at library/gns3server_daemon_config.py:318, so that module run crashes before writing. The crash is not modelled.
- `Gns3Server.RerunIsNoOp`: the INI write-then-read round trip is taken to be the identity. It is not always: `configparser` strips leading and trailing whitespace from values, and its `BasicInterpolation` reads `%%` back as `%`, so a value such as `password: " x"` or `"a%%b"` is rewritten with `changed` set on every forced run. A lone `%` raises `ValueError` in `read_dict` (library/gns3server_daemon_config.py:251), which `except IOError` (library/gns3server_daemon_config.py:257) does not catch.
- `DockerDaemon.RerunIsNoOp`: the JSON write-then-read round trip is taken to be the identity.
- `DockerDaemon.JVal`: a JSON string or list of strings is always loaded as `Str` or `StrList`; `Opaque` holds only other JSON values. The model relies on this encoding rule without stating it as a predicate.
- Non-atomic writes and concurrent runs are not modelled.
- `library/verif_sys.py` is not part of this model.

=== FILE: docker.dfy ===
/**
 * The Docker daemon module: merging the desired parameters into the flat JSON
 * daemon configuration (key -> JSON value) and deciding whether to write it.
 */
module DockerDaemon {
  import opened Wrappers
  import opened Params
  import opened WriteLists
  import Text
  import opened Reconciliation

  /** A JSON value of the configuration: a string, a list of strings, or any
      other JSON value, kept as its canonical text and compared as such. */
  datatype JVal = Str(s: string) | StrList(items: seq<string>) | Opaque(json: string)

  type Config = map<string, JVal>

  /** The storage root an empty configuration is seeded with. */
  const DefaultDataRoot: string := "/var/lib/docker"

  /** Names stored as strings; written `('data-root')`, a bare string, not a tuple. */
  const StrKeys: KeyList := Bare("data-root")

  /** Names stored as the list of their comma-separated pieces. */
  const ListKeys: KeyList := Names(["dns", "dns-search"])

  /** The configuration the parameters are applied to: an empty one is seeded
      with the default storage root, any other one is kept. */
  function Seeded(cfg: Config): (r: Config)
    ensures |r| > 0 && cfg.Keys <= r.Keys
    ensures |cfg| > 0 ==> r == cfg
    ensures |cfg| == 0 ==> r.Keys == {"data-root"} && r["data-root"] == Str(DefaultDataRoot)
  {
    if |cfg| == 0 then map["data-root" := Str(DefaultDataRoot)] else cfg
  }

  /**
   * What one parameter writes: under its own name, its string form if the string
   * kind lists it, then its comma-separated pieces if the list kind lists it. An
   * unset or unlisted parameter writes nothing, and for a name of the list kind
   * the last write is the list, whose pieces join back into the string form.
   */
  function ParamWrites(p: Param): (ws: seq<(string, JVal)>)
    ensures |ws| <= 2 && forall i :: 0 <= i < |ws| ==> ws[i].0 == p.0
    ensures p.1.None? ==> ws == []
    ensures p.1.Some? ==> (|ws| > 0 <==> Lists(StrKeys, p.0) || Lists(ListKeys, p.0))
    ensures p.1.Some? && Lists(StrKeys, p.0) ==> ws[0] == (p.0, Str(Render(p.1.value)))
    ensures p.1.Some? && Lists(StrKeys, p.0) && !Lists(ListKeys, p.0) ==> |ws| == 1
    ensures p.1.Some? && Lists(ListKeys, p.0) ==>
              && ws[|ws| - 1].1.StrList?
              && Text.Join(ws[|ws| - 1].1.items, ',') == Render(p.1.value)
              && var items := ws[|ws| - 1].1.items;
                 forall j :: 0 <= j < |items| ==> ',' !in items[j]
  {
    match p.1
    case None => []
    case Some(v) =>
      Text.JoinSplit(Render(v), ',');
      (if Lists(StrKeys, p.0) then [(p.0, Str(Render(v)))] else [])
      + (if Lists(ListKeys, p.0) then [(p.0, StrList(Text.Split(Render(v), ',')))] else [])
  }

  /** Everything the parameters write, in enumeration order. */
  function Writes(params: seq<Param>): seq<(string, JVal)> {
    Collect(params, ParamWrites)
  }

  /** `maj_config`: the configuration the module wants on disk; it is never empty. */
  function Merge(cfg: Config, params: seq<Param>): (r: Config)
    ensures |r| > 0
  {
    ApplyFlat(Seeded(cfg), Writes(params))
  }

  /** A parameter only ever writes the key of its own name. */
  lemma ParamWritesOwnKey(p: Param, k: string)
    requires p.0 != k
    ensures LastWrite(ParamWrites(p), k) == None
  {
    LastWriteAbsent(ParamWrites(p), k);
  }

  /** After the merge a key holds the last value written to it or, if no parameter
      writes it, its current value -- where an empty configuration counts as one
      holding only the default `data-root`, and a non-empty one is never seeded. */
  lemma MergeContents(cfg: Config, params: seq<Param>, k: string)
    ensures |cfg| == 0 ==>
              MapGet(Merge(cfg, params), k)
              == LastWrite(Writes(params), k).OrElse(if k == "data-root" then Some(Str(DefaultDataRoot)) else None)
    ensures |cfg| > 0 ==>
              MapGet(Merge(cfg, params), k) == LastWrite(Writes(params), k).OrElse(MapGet(cfg, k))
  {
    ApplyFlatGet(Seeded(cfg), Writes(params), k);
  }

  /** A key that no parameter with a value names keeps its current value. */
  lemma MergeKeepsUnset(cfg: Config, params: seq<Param>, k: string)
    requires forall i :: 0 <= i < |params| && params[i].0 == k ==> params[i].1.None?
    ensures |cfg| > 0 ==> MapGet(Merge(cfg, params), k) == MapGet(cfg, k)
    ensures |cfg| == 0 ==>
              MapGet(Merge(cfg, params), k) == if k == "data-root" then Some(Str(DefaultDataRoot)) else None
  {
    forall j | 0 <= j < |params| ensures LastWrite(ParamWrites(params[j]), k) == None {
      if params[j].0 != k {
        ParamWritesOwnKey(params[j], k);
      }
    }
    CollectUntouched(params, ParamWrites, k);
    MergeContents(cfg, params, k);
  }

  /** A supplied `data-root` writes its string form once. */
  lemma DataRootWrite(v: PVal)
    ensures ParamWrites(("data-root", Some(v))) == [("data-root", Str(Render(v)))]
  {
    assert Lists(StrKeys, "data-root") by {
      assert "data-root" <= "data-root";
    }
    NotNamed(ListKeys.names, "data-root");
  }

  /** A supplied `data-root` is stored as its string form. */
  lemma MergeStoresDataRoot(cfg: Config, params: seq<Param>, root: PVal)
    requires DistinctNames(params)
    requires ("data-root", Some(root)) in params
    ensures MapGet(Merge(cfg, params), "data-root") == Some(Str(Render(root)))
  {
    var i :| 0 <= i < |params| && params[i] == ("data-root", Some(root));
    assert LastWrite(Writes(params), "data-root") == Some(Str(Render(root))) by {
      forall j | 0 <= j < |params| && j != i ensures LastWrite(ParamWrites(params[j]), "data-root") == None {
        ParamWritesOwnKey(params[j], "data-root");
      }
      DataRootWrite(root);
      CollectOwner(params, ParamWrites, i, "data-root");
    }
    MergeContents(cfg, params, "data-root");
  }

  /** A supplied `dns` or `dns-search` is stored as the ordered list of its
      comma-separated pieces, untrimmed and with empty pieces kept. */
  lemma MergeSplitsList(cfg: Config, params: seq<Param>, name: string, v: PVal)
    requires name in ["dns", "dns-search"]
    requires DistinctNames(params)
    requires (name, Some(v)) in params
    ensures MapGet(Merge(cfg, params), name) == Some(StrList(Text.Split(Render(v), ',')))
  {
    var i :| 0 <= i < |params| && params[i] == (name, Some(v));
    forall j | 0 <= j < |params| && j != i ensures LastWrite(ParamWrites(params[j]), name) == None {
      ParamWritesOwnKey(params[j], name);
    }
    CollectOwner(params, ParamWrites, i, name);
    assert ParamWrites(params[i]) == [(name, StrList(Text.Split(Render(v), ',')))] by {
      ListNamesKind(name);
    }
    assert LastWrite(Writes(params), name) == Some(StrList(Text.Split(Render(v), ',')));
    MergeContents(cfg, params, name);
  }

  /** `config-file`, `force` and `debug` are never assigned: each is in the result
      only if it was already in the configuration, and keeps its value there. */
  lemma MergeNeverAddsControlKeys(cfg: Config, params: seq<Param>, k: string)
    requires k in ["config-file", "force", "debug"]
    ensures k in Merge(cfg, params) <==> k in cfg
    ensures MapGet(Merge(cfg, params), k) == MapGet(cfg, k)
  {
    ControlNamesKind(k);
    forall j | 0 <= j < |params| ensures LastWrite(ParamWrites(params[j]), k) == None {
      if params[j].0 != k {
        ParamWritesOwnKey(params[j], k);
      }
    }
    CollectUntouched(params, ParamWrites, k);
    MergeContents(cfg, params, k);
  }

  /** The bare `'data-root'` string, searched as a substring, matches none of the
      other declared names. */
  lemma OnlyDataRootIsString(name: string)
    requires name in ["dns", "dns-search", "config-file", "force", "debug"]
    ensures !Lists(StrKeys, name)
  {
    if |name| > 9 {
      Text.LongerNeverOccurs(name, "data-root");
    } else {
      var c := if name == "dns" then 'n' else if name == "force" then 'f' else 'b';
      assert c in name && c !in "data-root";
      Text.MissingCharNeverOccurs(name, "data-root", c);
    }
  }

  /** `dns` and `dns-search` are of the list kind only. */
  lemma ListNamesKind(name: string)
    requires name in ["dns", "dns-search"]
    ensures Lists(ListKeys, name) && !Lists(StrKeys, name)
  {
    OnlyDataRootIsString(name);
  }

  /** `config-file`, `force` and `debug` are of neither the string nor the list kind
      (the boolean kind is the empty tuple and lists nothing). */
  lemma ControlNamesKind(name: string)
    requires name in ["config-file", "force", "debug"]
    ensures !Lists(StrKeys, name) && !Lists(ListKeys, name)
  {
    assert !Lists(ListKeys, name) by {
      NotNamed(ListKeys.names, name);
    }
    OnlyDataRootIsString(name);
  }

  /** Of the names the module declares, only `data-root` is of the string kind and
      only `dns` and `dns-search` are of the list kind. */
  lemma DeclaredKinds(name: string)
    requires name in ["data-root", "dns", "dns-search", "config-file", "force", "debug"]
    ensures Lists(StrKeys, name) <==> name == "data-root"
    ensures Lists(ListKeys, name) <==> name in ["dns", "dns-search"]
  {
    if name == "data-root" {
      assert "data-root" <= "data-root";
    } else if name in ["dns", "dns-search"] {
      ListNamesKind(name);
    } else {
      ControlNamesKind(name);
    }
  }

  /** Merging the result again with the same parameters changes nothing. */
  lemma MergeIdempotent(cfg: Config, params: seq<Param>)
    ensures Merge(Merge(cfg, params), params) == Merge(cfg, params)
  {
    ApplyFlatTwice(Seeded(cfg), Writes(params));
  }

  /**
   * `run_module`: check mode exits first, then the shared reconciliation runs
   * with `force` taken from the parameters.
   */
  function Run(checkMode: bool, fileExists: bool, onDisk: Config, params: seq<Param>,
               writeOk: bool): (r: Outcome<Config>)
    ensures checkMode ==> r == Exit()
    ensures !checkMode && fileExists && !Truthy(Lookup(params, "force")) ==> r == Exit()
    ensures !checkMode && !fileExists ==>
              && !r.readFile
              && r.writeAttempt == Some(Merge(map[], params))
              && (r.status == Changed <==> writeOk)
              && (r.status == Failed(WriteFailed) <==> !writeOk)
    ensures !checkMode && fileExists && Truthy(Lookup(params, "force")) ==>
              && r.readFile
              && (r.status == Changed <==> Merge(onDisk, params) != onDisk && writeOk)
              && (r.status == Failed(WriteFailed) <==> Merge(onDisk, params) != onDisk && !writeOk)
              && r.writeAttempt == (if Merge(onDisk, params) == onDisk then None
                                    else Some(Merge(onDisk, params)))
              && (r.status == Unchanged <==> Merge(onDisk, params) == onDisk)
  {
    if checkMode then Exit()
    else Reconcile(fileExists, Truthy(Lookup(params, "force")), onDisk, map[],
                   cfg => Merge(cfg, params), writeOk)
  }

  /** A forced run over the file a previous run wrote (the merge of anything with
      the same parameters) neither changes nor writes it. */
  lemma RerunIsNoOp(previous: Config, params: seq<Param>, writeOk: bool)
    requires Truthy(Lookup(params, "force"))
    ensures Run(false, true, Merge(previous, params), params, writeOk) == Outcome(Unchanged, true, None)
  {
    MergeIdempotent(previous, params);
  }

  /** With no file, a `data-root` alone yields exactly `{"data-root": root}`, and the
      run writes it. */
  lemma FreshDataRootExample(root: string, params: seq<Param>)
    requires params == [("data-root", Some(PStr(root)))]
    ensures Merge(map[], params) == map["data-root" := Str(root)]
    ensures Run(false, false, map[], params, true) == Outcome(Changed, false, Some(map["data-root" := Str(root)]))
  {
    MergeStoresDataRoot(map[], params, PStr(root));
    forall k ensures MapGet(Merge(map[], params), k) == MapGet(map["data-root" := Str(root)], k) {
      if k != "data-root" {
        MergeKeepsUnset(map[], params, k);
      }
    }
    MapExtensional(Merge(map[], params), map["data-root" := Str(root)]);
  }

  /** A forced run whose `data-root` coincides with the one on disk changes nothing. */
  lemma CoincidingDataRootExample(root: string, params: seq<Param>, writeOk: bool)
    requires params == [("data-root", Some(PStr(root))), ("force", Some(PBool(true)))]
    ensures Run(false, true, map["data-root" := Str(root)], params, writeOk) == Outcome(Unchanged, true, None)
  {
    var onDisk := map["data-root" := Str(root)];
    assert DistinctNames(params);
    MergeStoresDataRoot(onDisk, params, PStr(root));
    forall k ensures MapGet(Merge(onDisk, params), k) == MapGet(onDisk, k) {
      if k == "force" {
        MergeNeverAddsControlKeys(onDisk, params, k);
      } else if k != "data-root" {
        MergeKeepsUnset(onDisk, params, k);
      }
    }
    MapExtensional(Merge(onDisk, params), onDisk);
    assert Lookup(params, "force") == Some(PBool(true)) by {
      LookupFinds(params, 1);
    }
  }

  /** Two comma-free servers joined by a comma, as in the documented input
      `dns: "8.8.8.8,8.8.8.4"` and its sample output `[ "8.8.8.8", "8.8.4.4" ]`,
      are stored as exactly those two servers, in order. */
  lemma SplitTwoServers(first: string, second: string)
    requires ',' !in first && ',' !in second
    ensures Text.Split(first + [','] + second, ',') == [first, second]
  {
    Text.SplitWithoutSeparator(second, ',');
    Text.SplitAfterPiece(first, second, ',');
  }
}

=== FILE: gns3server.dfy ===
/**
 * The GNS3 server module: merging the desired parameters into the sectioned
 * server configuration (section -> key -> string) and deciding whether to
 * write it.
 */
module Gns3Server {
  import opened Wrappers
  import opened Params
  import opened WriteLists
  import Text
  import opened Reconciliation

  type Section = map<string, string>
  type Config = map<string, Section>

  /** Setting `config[section][key]`: `((section, key), value)`. */
  type Write = ((string, string), string)

  /** Storage root used when `data-root` is not supplied. */
  const DefaultDataRoot: string := "/opt/gns3"

  /** Sub-directories of the storage root; each gets a `<name>_path` key in `Server`. */
  const DataDirs: seq<string> := ["configs", "images", "projects", "appliances", "symbols"]

  /** The storage root the default configuration is built on. */
  function DataRoot(params: seq<Param>): string {
    match Lookup(params, "data-root")
    case Some(v) => Render(v)
    case None => DefaultDataRoot
  }

  /** A supplied `data-root` is the storage root; with none supplied the root is
      the default one. */
  lemma DataRootChoice(params: seq<Param>)
    requires DistinctNames(params)
    ensures (forall i :: 0 <= i < |params| && params[i].0 == "data-root" ==> params[i].1.None?) ==>
              DataRoot(params) == DefaultDataRoot
    ensures forall i :: 0 <= i < |params| && params[i].0 == "data-root" && params[i].1.Some? ==>
              DataRoot(params) == Render(params[i].1.value)
  {
    if forall i :: 0 <= i < |params| && params[i].0 == "data-root" ==> params[i].1.None? {
      LookupUnset(params, "data-root");
    }
    forall i | 0 <= i < |params| && params[i].0 == "data-root" && params[i].1.Some?
      ensures DataRoot(params) == Render(params[i].1.value)
    {
      LookupFinds(params, i);
    }
  }

  /** The default configuration that replaces one without a `Server` section. */
  function Skeleton(root: string): Config {
    map[
      "Server" := map[
        "host" := "0.0.0.0", "port" := "3080",
        "auth" := "False", "user" := "gns3", "password" := "gns3",
        "ssl" := "False",
        "configs_path" := root + "/configs", "images_path" := root + "/images",
        "projects_path" := root + "/projects", "appliances_path" := root + "/appliances",
        "symbols_path" := root + "/symbols",
        "allowed_interfaces" := "virbr0,br0", "default_nat_interface" := "virbr0"
      ],
      "IOU" := map["iourc_path" := root + "/iourc.txt", "license_check" := "True"],
      "Qemu" := map[
        "enable_kvm" := "True", "require_kvm" := "True",
        "enable_hardware_acceleration" := "True", "require_hardware_acceleration" := "False"
      ]
    ]
  }

  /** The keys of each section of the configuration model. */
  const ServerKeys: KeyList := Names([
    "host", "port",
    "auth", "user", "password",
    "ssl", "certfile", "certkey",
    "configs_path", "images_path", "projects_path", "appliances_path", "symbols_path",
    "report_errors",
    "console_start_port_range", "console_end_port_range",
    "vnc_console_start_port_range", "vnc_console_end_port_range",
    "udp_start_port_range", "udp_end_port_range",
    "ubridge_path",
    "allowed_interfaces", "default_nat_interface"])
  const DynamipsKeys: KeyList := Names([
    "dynamips_path", "allocate_aux_console_ports", "mmap_support",
    "sparse_memory_support", "ghost_ios_support"])
  const IouKeys: KeyList := Names(["iourc_path", "license_check"])
  const QemuKeys: KeyList := Names([
    "enable_kvm", "require_kvm", "enable_hardware_acceleration", "require_hardware_acceleration"])
  /** Written `('vpcs_path')`: a bare string, not a one-element tuple. */
  const VpcsKeys: KeyList := Bare("vpcs_path")

  /** The configuration model: sections in table order with their keys. */
  const SectionTable: seq<(string, KeyList)> := [
    ("Server", ServerKeys), ("Dynamips", DynamipsKeys), ("IOU", IouKeys),
    ("Qemu", QemuKeys), ("VPCS", VpcsKeys)
  ]

  /** The first section of `table` whose entry lists `option`. */
  function FindSection(table: seq<(string, KeyList)>, option: string): (r: Option<string>)
    ensures r.None? ==> forall i :: 0 <= i < |table| ==> !Lists(table[i].1, option)
    ensures r.Some? ==> exists i :: 0 <= i < |table| && table[i].0 == r.value
                                    && Lists(table[i].1, option)
                                    && forall j :: 0 <= j < i ==> !Lists(table[j].1, option)
    decreases |table|
  {
    if |table| == 0 then None
    else if Lists(table[0].1, option) then Some(table[0].0)
    else
      var r := FindSection(table[1..], option);
      if r.Some? then
        ghost var i :| 0 <= i < |table[1..]| && table[1..][i].0 == r.value
                       && Lists(table[1..][i].1, option)
                       && forall j :: 0 <= j < i ==> !Lists(table[1..][j].1, option);
        assert table[i + 1].0 == r.value && Lists(table[i + 1].1, option);
        assert forall j :: 0 <= j < i + 1 ==> !Lists(table[j].1, option) by {
          forall j | 0 <= j < i + 1 ensures !Lists(table[j].1, option) {
            if j > 0 { assert table[j] == table[1..][j - 1]; }
          }
        }
        r
      else
        assert forall i :: 0 <= i < |table| ==> !Lists(table[i].1, option) by {
          forall i | 0 <= i < |table| ensures !Lists(table[i].1, option) {
            if i > 0 { assert table[i] == table[1..][i - 1]; }
          }
        }
        r
  }

  /** The section a generic parameter is stored in, if the model lists it. */
  function FirstSection(option: string): Option<string> {
    FindSection(SectionTable, option)
  }

  /** The five path writes a storage root fans out into. */
  function PathWrites(root: string): seq<Write> {
    seq(|DataDirs|, i requires 0 <= i < |DataDirs| =>
      (("Server", DataDirs[i] + "_path"), root + "/" + DataDirs[i]))
  }

  /**
   * What one parameter writes, given the address its interface resolves to: an
   * unset parameter nothing; `interface` only `Server.host`; `data-root` the five
   * `Server` paths under its value, in directory order; any other parameter at
   * most one write, of its own key, holding its `str()` rendering.
   */
  function ParamWrites(p: Param, addr: string): (ws: seq<Write>)
    ensures p.1.None? ==> ws == []
    ensures p.1.Some? && p.0 == "interface" ==> ws == [(("Server", "host"), addr)]
    ensures p.1.Some? && p.0 == "data-root" ==>
              && |ws| == |DataDirs|
              && forall d :: 0 <= d < |ws| ==>
                   ws[d] == (("Server", DataDirs[d] + "_path"), Render(p.1.value) + "/" + DataDirs[d])
    ensures p.0 != "interface" && p.0 != "data-root" ==>
              && |ws| <= 1
              && forall i :: 0 <= i < |ws| ==> ws[i].0.1 == p.0 && ws[i].1 == Render(p.1.value)
    ensures p.1.Some? && p.0 != "interface" && p.0 != "data-root" ==>
              (|ws| == 1 <==> FirstSection(p.0).Some?)
    ensures p.0 != "interface" && p.0 != "data-root" ==>
              forall i :: 0 <= i < |ws| ==> FirstSection(p.0) == Some(ws[i].0.0)
  {
    match p.1
    case None => []
    case Some(v) =>
      if p.0 == "interface" then [(("Server", "host"), addr)]
      else if p.0 == "data-root" then PathWrites(Render(v))
      else match FirstSection(p.0)
           case Some(section) => [((section, p.0), Render(v))]
           case None => []
  }

  /** `ParamWrites` for a fixed resolved address. */
  function WriterFor(addr: string): Param -> seq<Write> {
    p => ParamWrites(p, addr)
  }

  /** Everything the parameters write, in enumeration order. */
  function Writes(params: seq<Param>, addr: string): seq<Write> {
    Collect(params, WriterFor(addr))
  }

  /** The sections the writes target. */
  function WrittenSections(ws: seq<Write>): set<string>
    decreases |ws|
  {
    if |ws| == 0 then {} else WrittenSections(ws[..|ws| - 1]) + {ws[|ws| - 1].0.0}
  }

  /** Writes that all target listed sections only name listed sections. */
  lemma {:induction false} WrittenSectionsIn(ws: seq<Write>, sections: set<string>)
    requires forall i :: 0 <= i < |ws| ==> ws[i].0.0 in sections
    ensures WrittenSections(ws) <= sections
    decreases |ws|
  {
    if |ws| > 0 {
      WrittenSectionsIn(ws[..|ws| - 1], sections);
    }
  }

  /** `config[section][key] = value`, creating the section when it is missing: the
      written key holds the value, every other key keeps its value, and the only
      section that can appear is the written one. */
  function Put(c: Config, w: Write): (r: Config)
    ensures r.Keys == c.Keys + {w.0.0}
    ensures Get(r, w.0.0, w.0.1) == Some(w.1)
    ensures forall s, k :: (s, k) != w.0 ==> Get(r, s, k) == Get(c, s, k)
  {
    var section := w.0.0;
    c[section := (if section in c then c[section] else map[])[w.0.1 := w.1]]
  }

  /** Applies the writes in order. */
  function ApplyWrites(c: Config, ws: seq<Write>): (r: Config)
    ensures r.Keys == c.Keys + WrittenSections(ws)
    decreases |ws|
  {
    if |ws| == 0 then c else Put(ApplyWrites(c, ws[..|ws| - 1]), ws[|ws| - 1])
  }

  /** `config[section][key]` as an option. */
  function Get(c: Config, section: string, key: string): Option<string> {
    if section in c && key in c[section] then Some(c[section][key]) else None
  }

  /** The configuration the parameters are applied to. */
  function Start(cfg: Config, params: seq<Param>): Config {
    if "Server" in cfg then cfg else Skeleton(DataRoot(params))
  }

  /** `maj_config`: the configuration the module wants on disk. */
  function Merge(cfg: Config, params: seq<Param>, addr: string): (r: Config)
    ensures "Server" in r
  {
    ApplyWrites(Start(cfg, params), Writes(params, addr))
  }

  /** After the writes, a key holds its last write, or its old value if none targets it. */
  lemma {:induction false} ApplyWritesGet(c: Config, ws: seq<Write>, section: string, key: string)
    ensures Get(ApplyWrites(c, ws), section, key) == LastWrite(ws, (section, key)).OrElse(Get(c, section, key))
    decreases |ws|
  {
    if |ws| > 0 {
      ApplyWritesGet(c, ws[..|ws| - 1], section, key);
    }
  }

  /** Two configurations with the same sections and the same keys and values are equal. */
  lemma ConfigExtensional(a: Config, b: Config)
    requires a.Keys == b.Keys
    requires forall s, k :: Get(a, s, k) == Get(b, s, k)
    ensures a == b
  {
    forall s | s in a ensures a[s] == b[s] {
      forall k ensures k in a[s] <==> k in b[s] {
        assert Get(a, s, k) == Get(b, s, k);
      }
      forall k | k in a[s] ensures a[s][k] == b[s][k] {
        assert Get(a, s, k) == Get(b, s, k);
      }
    }
  }

  /** Applying the same writes a second time changes nothing. */
  lemma ApplyWritesTwice(c: Config, ws: seq<Write>)
    ensures ApplyWrites(ApplyWrites(c, ws), ws) == ApplyWrites(c, ws)
  {
    var once := ApplyWrites(c, ws);
    forall s, k ensures Get(ApplyWrites(once, ws), s, k) == Get(once, s, k) {
      ApplyWritesGet(once, ws, s, k);
      ApplyWritesGet(c, ws, s, k);
    }
    ConfigExtensional(ApplyWrites(once, ws), once);
  }

  /** A configuration with a `Server` section is kept and updated: its sections
      gain the written ones, and every key holds its last write or its current value. */
  lemma MergeWithServer(cfg: Config, params: seq<Param>, addr: string)
    requires "Server" in cfg
    ensures Merge(cfg, params, addr).Keys == cfg.Keys + WrittenSections(Writes(params, addr))
    ensures forall s, k :: Get(Merge(cfg, params, addr), s, k)
                           == LastWrite(Writes(params, addr), (s, k)).OrElse(Get(cfg, s, k))
  {
    forall s, k ensures Get(Merge(cfg, params, addr), s, k)
                        == LastWrite(Writes(params, addr), (s, k)).OrElse(Get(cfg, s, k)) {
      ApplyWritesGet(cfg, Writes(params, addr), s, k);
    }
  }

  /** A configuration without a `Server` section is discarded: the result is the
      default configuration on `DataRoot(params)` updated by the writes, whatever
      the configuration held. */
  lemma MergeWithoutServer(cfg: Config, params: seq<Param>, addr: string)
    requires "Server" !in cfg
    ensures Merge(cfg, params, addr) == Merge(map[], params, addr)
    ensures Merge(cfg, params, addr).Keys
            == {"Server", "IOU", "Qemu"} + WrittenSections(Writes(params, addr))
    ensures forall s, k :: Get(Merge(cfg, params, addr), s, k)
                           == LastWrite(Writes(params, addr), (s, k)).OrElse(Get(Skeleton(DataRoot(params)), s, k))
  {
    forall s, k ensures Get(Merge(cfg, params, addr), s, k)
                        == LastWrite(Writes(params, addr), (s, k)).OrElse(Get(Skeleton(DataRoot(params)), s, k)) {
      ApplyWritesGet(Skeleton(DataRoot(params)), Writes(params, addr), s, k);
    }
  }

  /** Merging the result again with the same parameters and address changes nothing. */
  lemma MergeIdempotent(cfg: Config, params: seq<Param>, addr: string)
    ensures Merge(Merge(cfg, params, addr), params, addr) == Merge(cfg, params, addr)
  {
    ApplyWritesTwice(Start(cfg, params), Writes(params, addr));
  }

  /** The path writes of a storage root: each `<dir>_path` of `Server` gets
      `root/<dir>`, and nothing else is touched. */
  lemma PathWritesTargets(root: string, key: (string, string))
    ensures forall d :: 0 <= d < |DataDirs| ==>
              LastWrite(PathWrites(root), ("Server", DataDirs[d] + "_path")) == Some(root + "/" + DataDirs[d])
    ensures (forall d :: 0 <= d < |DataDirs| ==> key != ("Server", DataDirs[d] + "_path")) ==>
              LastWrite(PathWrites(root), key) == None
  {
    var ws := PathWrites(root);
    assert forall d, j :: 0 <= d < j < |DataDirs| ==> ws[d].0 != ws[j].0 by {
      forall d, j | 0 <= d < j < |DataDirs| ensures ws[d].0 != ws[j].0 {
        assert ws[d].0.1[0] == DataDirs[d][0] && ws[j].0.1[0] == DataDirs[j][0];
      }
    }
    forall d | 0 <= d < |DataDirs|
      ensures LastWrite(ws, ("Server", DataDirs[d] + "_path")) == Some(root + "/" + DataDirs[d])
    {
      LastWriteAt(ws, d, ("Server", DataDirs[d] + "_path"));
    }
    if forall d :: 0 <= d < |DataDirs| ==> key != ("Server", DataDirs[d] + "_path") {
      LastWriteAbsent(ws, key);
    }
  }

  /** The search walks the table in order: Server, Dynamips, IOU, Qemu, VPCS. */
  lemma FirstSectionOrder(option: string)
    ensures FirstSection(option) ==
      if Lists(ServerKeys, option) then Some("Server")
      else if Lists(DynamipsKeys, option) then Some("Dynamips")
      else if Lists(IouKeys, option) then Some("IOU")
      else if Lists(QemuKeys, option) then Some("Qemu")
      else if Lists(VpcsKeys, option) then Some("VPCS")
      else None
  {
    var t0 := SectionTable;
    var t1 := t0[1..];
    var t2 := t1[1..];
    var t3 := t2[1..];
    var t4 := t3[1..];
    assert t1 == [("Dynamips", DynamipsKeys), ("IOU", IouKeys), ("Qemu", QemuKeys), ("VPCS", VpcsKeys)];
    assert t2 == [("IOU", IouKeys), ("Qemu", QemuKeys), ("VPCS", VpcsKeys)];
    assert t3 == [("Qemu", QemuKeys), ("VPCS", VpcsKeys)];
    assert t4 == [("VPCS", VpcsKeys)];
    assert FindSection(t4[1..], option) == None;
    assert FindSection(t4, option) == if Lists(VpcsKeys, option) then Some("VPCS") else None;
    assert FindSection(t3, option) == if Lists(QemuKeys, option) then Some("Qemu") else FindSection(t4, option);
    assert FindSection(t2, option) == if Lists(IouKeys, option) then Some("IOU") else FindSection(t3, option);
    assert FindSection(t1, option) == if Lists(DynamipsKeys, option) then Some("Dynamips") else FindSection(t2, option);
  }

  /** The declared names `port`, `auth`, `user` and `password` are stored in `Server`. */
  lemma ServerArgumentsRoute(option: string)
    requires option in ["port", "auth", "user", "password"]
    ensures FirstSection(option) == Some("Server")
  {
    FirstSectionOrder(option);
  }

  /** The four KVM and acceleration flags are listed by `Qemu` and by no earlier section. */
  lemma QemuArgumentsNotEarlier(option: string)
    requires option in ["require_kvm", "enable_kvm", "enable_hardware_acceleration", "require_hardware_acceleration"]
    ensures !Lists(ServerKeys, option)
    ensures !Lists(DynamipsKeys, option) && !Lists(IouKeys, option) && Lists(QemuKeys, option)
  {
    NotNamed(ServerKeys.names, option);
    NotNamed(DynamipsKeys.names, option);
    NotNamed(IouKeys.names, option);
  }

  /** The four declared KVM and hardware-acceleration flags are stored in `Qemu`. */
  lemma QemuArgumentsRoute(option: string)
    requires option in ["require_kvm", "enable_kvm", "enable_hardware_acceleration", "require_hardware_acceleration"]
    ensures FirstSection(option) == Some("Qemu")
  {
    FirstSectionOrder(option);
    QemuArgumentsNotEarlier(option);
  }

  /** The five control parameters are not keys of the `Server` section. */
  lemma UnlistedNotInServer(option: string)
    requires option in ["config-file", "force", "interface", "data-root", "debug"]
    ensures !Lists(ServerKeys, option)
  {
    NotNamed(ServerKeys.names, option);
  }

  /** The five control parameters are listed by neither `Dynamips`, `IOU` nor `Qemu`. */
  lemma UnlistedNotInOtherTuples(option: string)
    requires option in ["config-file", "force", "interface", "data-root", "debug"]
    ensures !Lists(DynamipsKeys, option) && !Lists(IouKeys, option) && !Lists(QemuKeys, option)
  {
    NotNamed(DynamipsKeys.names, option);
    NotNamed(IouKeys.names, option);
    NotNamed(QemuKeys.names, option);
  }

  /** The bare `'vpcs_path'` string, searched as a substring, matches none of the
      other declared names. */
  lemma UnlistedNotInVpcs(option: string)
    requires option in ["config-file", "force", "interface", "data-root", "debug"]
    ensures !Lists(VpcsKeys, option)
  {
    if |option| > 9 {
      Text.LongerNeverOccurs(option, "vpcs_path");
    } else {
      assert option[0] in "fid" && option[0] !in "vpcs_path";
      Text.MissingCharNeverOccurs(option, "vpcs_path", option[0]);
    }
  }

  /** The other declared names -- `config-file`, `force`, `interface`, `data-root`
      and `debug` -- are in no section, so the generic path never stores them. */
  lemma UnlistedArgumentsRoute(option: string)
    requires option in ["config-file", "force", "interface", "data-root", "debug"]
    ensures FirstSection(option) == None
  {
    FirstSectionOrder(option);
    UnlistedNotInServer(option);
    UnlistedNotInOtherTuples(option);
    UnlistedNotInVpcs(option);
  }

  /** With unique names and no parameter called `host`, a supplied `interface`
      leaves `Server.host` at the resolved address. */
  lemma MergeSetsHost(cfg: Config, params: seq<Param>, addr: string)
    requires DistinctNames(params)
    requires "host" !in NameSet(params)
    requires Lookup(params, "interface").Some?
    ensures Get(Merge(cfg, params, addr), "Server", "host") == Some(addr)
  {
    var i := LookupIndex(params, "interface");
    var key := ("Server", "host");
    forall j | 0 <= j < |params| && j != i ensures LastWrite(WriterFor(addr)(params[j]), key) == None {
      var q := params[j];
      assert q.0 in NameSet(params);
      if q.1.Some? && q.0 == "data-root" {
        PathWritesTargets(Render(q.1.value), key);
      }
    }
    CollectOwner(params, WriterFor(addr), i, key);
    ApplyWritesGet(Start(cfg, params), Writes(params, addr), "Server", "host");
  }

  /** With unique names and no parameter named like a path key, a supplied
      `data-root` sets each `Server.<dir>_path` to `root/<dir>`. */
  lemma MergeFansOutDataRoot(cfg: Config, params: seq<Param>, addr: string, root: PVal)
    requires DistinctNames(params)
    requires forall d :: 0 <= d < |DataDirs| ==> DataDirs[d] + "_path" !in NameSet(params)
    requires ("data-root", Some(root)) in params
    ensures forall d :: 0 <= d < |DataDirs| ==>
              Get(Merge(cfg, params, addr), "Server", DataDirs[d] + "_path") == Some(Render(root) + "/" + DataDirs[d])
  {
    var i :| 0 <= i < |params| && params[i] == ("data-root", Some(root));
    forall d | 0 <= d < |DataDirs|
      ensures Get(Merge(cfg, params, addr), "Server", DataDirs[d] + "_path") == Some(Render(root) + "/" + DataDirs[d])
    {
      var key := ("Server", DataDirs[d] + "_path");
      forall j | 0 <= j < |params| && j != i ensures LastWrite(WriterFor(addr)(params[j]), key) == None {
        assert params[j].0 in NameSet(params);
      }
      CollectOwner(params, WriterFor(addr), i, key);
      PathWritesTargets(Render(root), key);
      ApplyWritesGet(Start(cfg, params), Writes(params, addr), key.0, key.1);
    }
  }

  /** `IOU.iourc_path` is never written by `data-root`: it follows the storage root
      only through the default configuration, and otherwise keeps its value. */
  lemma IourcFollowsSkeleton(cfg: Config, params: seq<Param>, addr: string)
    requires "iourc_path" !in NameSet(params)
    ensures "Server" !in cfg ==>
              Get(Merge(cfg, params, addr), "IOU", "iourc_path") == Some(DataRoot(params) + "/iourc.txt")
    ensures "Server" in cfg ==>
              Get(Merge(cfg, params, addr), "IOU", "iourc_path") == Get(cfg, "IOU", "iourc_path")
  {
    var key := ("IOU", "iourc_path");
    forall j | 0 <= j < |params| ensures LastWrite(WriterFor(addr)(params[j]), key) == None {
      var q := params[j];
      assert q.0 in NameSet(params);
      if q.1.Some? && q.0 == "data-root" {
        PathWritesTargets(Render(q.1.value), key);
      }
    }
    CollectUntouched(params, WriterFor(addr), key);
    ApplyWritesGet(Start(cfg, params), Writes(params, addr), "IOU", "iourc_path");
  }

  /** Any other supplied parameter that the section table lists is stored, as its
      `str()` rendering, under the first section listing it (created if missing). */
  lemma MergeStoresOption(cfg: Config, params: seq<Param>, addr: string, i: nat)
    requires DistinctNames(params)
    requires i < |params| && params[i].1.Some?
    requires params[i].0 !in {"interface", "data-root", "host"}
    requires forall d :: 0 <= d < |DataDirs| ==> params[i].0 != DataDirs[d] + "_path"
    requires FirstSection(params[i].0).Some?
    ensures FirstSection(params[i].0).value in Merge(cfg, params, addr)
    ensures Get(Merge(cfg, params, addr), FirstSection(params[i].0).value, params[i].0)
            == Some(Render(params[i].1.value))
  {
    var name := params[i].0;
    var key := (FirstSection(name).value, name);
    forall j | 0 <= j < |params| && j != i ensures LastWrite(WriterFor(addr)(params[j]), key) == None {
      var q := params[j];
      if q.1.Some? && q.0 == "data-root" {
        PathWritesTargets(Render(q.1.value), key);
      }
    }
    CollectOwner(params, WriterFor(addr), i, key);
    ApplyWritesGet(Start(cfg, params), Writes(params, addr), key.0, key.1);
  }

  /** A parameter that writes nothing -- one valued `None`, or one the section
      table does not list -- can be dropped without changing the merge. */
  lemma MergeSkipsInert(cfg: Config, params: seq<Param>, addr: string, i: nat)
    requires DistinctNames(params)
    requires i < |params|
    requires params[i].1.None?
             || (params[i].0 !in {"interface", "data-root"} && FirstSection(params[i].0).None?)
    ensures Merge(cfg, params[..i] + params[i + 1..], addr) == Merge(cfg, params, addr)
  {
    var rest := params[..i] + params[i + 1..];
    assert Writes(rest, addr) == Writes(params, addr) by {
      assert WriterFor(addr)(params[i]) == [];
      CollectSkip(params, WriterFor(addr), i);
    }
    assert DataRoot(rest) == DataRoot(params) by {
      if params[i].0 == "data-root" {
        LookupFinds(params, i);
        assert "data-root" !in NameSet(rest) by {
          forall j | 0 <= j < |rest| ensures rest[j].0 != "data-root" {
            if j < i { assert rest[j] == params[j]; } else { assert rest[j] == params[j + 1]; }
          }
        }
        LookupAbsent(rest, "data-root");
      } else {
        LookupSkips(params, i, "data-root");
      }
    }
  }

  /** The name the interface failure message quotes. */
  function InterfaceName(params: seq<Param>): string {
    match Lookup(params, "interface")
    case Some(v) => Render(v)
    case None => ""
  }

  /** A run on a host without the requested interface fails before reading the
      file, and its message quotes the interface's `str()` rendering after
      `Interface [`. */
  lemma FailureQuotesInterface(params: seq<Param>, iface: PVal, fileExists: bool, onDisk: Config,
                               addr: string, writeOk: bool)
    requires DistinctNames(params)
    requires ("interface", Some(iface)) in params
    ensures var r := Run(false, false, fileExists, onDisk, params, addr, writeOk);
            && r == Outcome(Failed(InterfaceNotFound(Render(iface))), false, None)
            && Text.MatchAt(Render(iface), Message(r.status.failure), 11)
  {
    var i :| 0 <= i < |params| && params[i] == ("interface", Some(iface));
    LookupFinds(params, i);
  }

  /**
   * `run_module`: check mode exits first, then a missing interface fails, then
   * the shared reconciliation runs with `force` taken from the parameters; the
   * address the interface resolves to and whether it exists are inputs.
   */
  function Run(checkMode: bool, interfaceExists: bool, fileExists: bool, onDisk: Config,
               params: seq<Param>, addr: string, writeOk: bool): (r: Outcome<Config>)
    ensures checkMode ==> r == Exit()
    ensures !checkMode && !interfaceExists ==>
              r == Outcome(Failed(InterfaceNotFound(InterfaceName(params))), false, None)
    ensures !checkMode && interfaceExists && fileExists && !Truthy(Lookup(params, "force")) ==>
              r == Exit()
    ensures !checkMode && interfaceExists && !fileExists ==>
              && !r.readFile
              && r.writeAttempt == Some(Merge(map[], params, addr))
              && (r.status == Changed <==> writeOk)
              && (r.status == Failed(WriteFailed) <==> !writeOk)
    ensures !checkMode && interfaceExists && fileExists && Truthy(Lookup(params, "force")) ==>
              && r.readFile
              && (r.status == Changed <==> Merge(onDisk, params, addr) != onDisk && writeOk)
              && (r.status == Failed(WriteFailed) <==> Merge(onDisk, params, addr) != onDisk && !writeOk)
              && r.writeAttempt == (if Merge(onDisk, params, addr) == onDisk then None
                                    else Some(Merge(onDisk, params, addr)))
              && (r.status == Unchanged <==> Merge(onDisk, params, addr) == onDisk)
  {
    if checkMode then Exit()
    else if !interfaceExists then Outcome(Failed(InterfaceNotFound(InterfaceName(params))), false, None)
    else Reconcile(fileExists, Truthy(Lookup(params, "force")), onDisk, map[],
                   cfg => Merge(cfg, params, addr), writeOk)
  }

  /** A forced run over the file a previous run wrote (the merge of anything with
      the same parameters and address) neither changes nor writes it. */
  lemma RerunIsNoOp(previous: Config, params: seq<Param>, addr: string, writeOk: bool)
    requires Truthy(Lookup(params, "force"))
    ensures Run(false, true, true, Merge(previous, params, addr), params, addr, writeOk)
            == Outcome(Unchanged, true, None)
  {
    MergeIdempotent(previous, params, addr);
  }

  /** The writes of the last documented example: the host address, then the flag. */
  lemma ExampleWrites(iface: PVal, addr: string)
    ensures var params := [("interface", Some(iface)), ("require_kvm", Some(PBool(false)))];
            && Writes(params, addr) == [(("Server", "host"), addr), (("Qemu", "require_kvm"), "False")]
            && DataRoot(params) == DefaultDataRoot
  {
    var params := [("interface", Some(iface)), ("require_kvm", Some(PBool(false)))];
    QemuArgumentsRoute("require_kvm");
    assert ParamWrites(params[1], addr) == [(("Qemu", "require_kvm"), "False")];
    assert Collect(params, WriterFor(addr))
           == ParamWrites(params[0], addr) + (ParamWrites(params[1], addr) + Collect(params[2..], WriterFor(addr)));
    assert params[0].0 != "data-root" by { assert params[0].0[0] != "data-root"[0]; }
    assert Lookup(params, "data-root") == Lookup(params[1..], "data-root");
    assert params[1].0 != "data-root";
    assert Lookup(params[1..], "data-root") == Lookup(params[1..][1..], "data-root");
    assert params[1..][1..] == [];
  }

  /** The storage keys and paths spelled out, directory by directory. */
  lemma DataDirsSpelled(root: string)
    ensures DataDirs[0] + "_path" == "configs_path" && root + "/" + DataDirs[0] == root + "/configs"
    ensures DataDirs[1] + "_path" == "images_path" && root + "/" + DataDirs[1] == root + "/images"
    ensures DataDirs[2] + "_path" == "projects_path" && root + "/" + DataDirs[2] == root + "/projects"
    ensures DataDirs[3] + "_path" == "appliances_path" && root + "/" + DataDirs[3] == root + "/appliances"
    ensures DataDirs[4] + "_path" == "symbols_path" && root + "/" + DataDirs[4] == root + "/symbols"
  {
  }

  /** The default configuration has the three sections `Server`, `IOU` and `Qemu`,
      and stores each storage directory at `<root>/<dir>`. */
  lemma SkeletonPaths(root: string)
    ensures Skeleton(root).Keys == {"Server", "IOU", "Qemu"}
    ensures forall d :: 0 <= d < |DataDirs| ==>
              Get(Skeleton(root), "Server", DataDirs[d] + "_path") == Some(root + "/" + DataDirs[d])
  {
    var server := Skeleton(root)["Server"];
    DataDirsSpelled(root);
    assert server["configs_path"] == root + "/configs" && server["images_path"] == root + "/images"
           && server["projects_path"] == root + "/projects" && server["appliances_path"] == root + "/appliances" && server["symbols_path"] == root + "/symbols";
    assert |DataDirs| == 5;
  }

  /** The default configuration agrees with the `data-root` fan-out of its own
      root: fanning that root out over it changes nothing. */
  lemma SkeletonFollowsRoot(root: string)
    ensures ApplyWrites(Skeleton(root), PathWrites(root)) == Skeleton(root)
  {
    var sk := Skeleton(root);
    SkeletonPaths(root);
    var after := ApplyWrites(sk, PathWrites(root));
    assert WrittenSections(PathWrites(root)) <= {"Server"} by {
      WrittenSectionsIn(PathWrites(root), {"Server"});
    }
    forall s, k ensures Get(after, s, k) == Get(sk, s, k) {
      ApplyWritesGet(sk, PathWrites(root), s, k);
      PathWritesTargets(root, (s, k));
    }
    ConfigExtensional(after, sk);
  }

  /** On a host without a configuration, a key no parameter writes keeps the
      default configuration's value. */
  lemma FreshKeepsDefault(params: seq<Param>, addr: string, section: string, key: string)
    requires forall i :: 0 <= i < |Writes(params, addr)| ==> Writes(params, addr)[i].0 != (section, key)
    ensures Get(Merge(map[], params, addr), section, key) == Get(Skeleton(DataRoot(params)), section, key)
  {
    LastWriteAbsent(Writes(params, addr), (section, key));
    ApplyWritesGet(Skeleton(DataRoot(params)), Writes(params, addr), section, key);
  }

  /** On a host without a configuration, a key some parameter writes holds the
      last value written to it. */
  lemma FreshTakesWrite(params: seq<Param>, addr: string, section: string, key: string)
    requires LastWrite(Writes(params, addr), (section, key)).Some?
    ensures Get(Merge(map[], params, addr), section, key) == LastWrite(Writes(params, addr), (section, key))
  {
    ApplyWritesGet(Skeleton(DataRoot(params)), Writes(params, addr), section, key);
  }

  /** On a host without a configuration, an interface address followed by
      `require_kvm = "False"` both land on the default configuration. */
  lemma FreshHostWritesLand(params: seq<Param>, addr: string)
    requires Writes(params, addr) == [(("Server", "host"), addr), (("Qemu", "require_kvm"), "False")]
    ensures Get(Merge(map[], params, addr), "Server", "host") == Some(addr)
    ensures Get(Merge(map[], params, addr), "Qemu", "require_kvm") == Some("False")
  {
    FreshTakesWrite(params, addr, "Server", "host");
    FreshTakesWrite(params, addr, "Qemu", "require_kvm");
  }

  /** The last example of the module documentation on a host without a
      configuration: `interface` and `require_kvm: false` set the host address
      and the Qemu flag, and every other key is the default configuration's,
      built on `/opt/gns3`. */
  lemma FreshHostExample(iface: PVal, addr: string, params: seq<Param>)
    requires params == [("interface", Some(iface)), ("require_kvm", Some(PBool(false)))]
    ensures DataRoot(params) == DefaultDataRoot
    ensures Get(Merge(map[], params, addr), "Server", "host") == Some(addr)
    ensures Get(Merge(map[], params, addr), "Qemu", "require_kvm") == Some("False")
    ensures forall s, k :: (s, k) != ("Server", "host") && (s, k) != ("Qemu", "require_kvm") ==>
              Get(Merge(map[], params, addr), s, k) == Get(Skeleton(DataRoot(params)), s, k)
  {
    ExampleWrites(iface, addr);
    FreshHostWritesLand(params, addr);
    forall s, k | (s, k) != ("Server", "host") && (s, k) != ("Qemu", "require_kvm")
      ensures Get(Merge(map[], params, addr), s, k) == Get(Skeleton(DataRoot(params)), s, k)
    {
      FreshKeepsDefault(params, addr, s, k);
    }
  }
}

=== FILE: params.dfy ===
/**
 * Module parameters as Ansible hands them to a module: an ordered
 * table from parameter name to an optional value, plus the helpers both merge
 * functions share (Python's `str()` and truthiness, and the membership test a
 * schema table entry answers).
 */
module Params {
  import opened Wrappers
  import Text

  /** A parameter value after Ansible's type conversion. */
  datatype PVal = PStr(s: string) | PBool(b: bool) | PInt(i: int)

  /** A parameter name with its value; `None` is Python's `None` (not supplied). */
  type Param = (string, Option<PVal>)

  /** Python's `str(value)`: a string is kept as it is, a boolean becomes `True`
      or `False`, and an integer becomes decimal text that reads back as it. */
  function Render(v: PVal): (s: string)
    ensures v.PStr? ==> s == v.s
    ensures v.PBool? ==> (s == "True" <==> v.b) && (s == "False" <==> !v.b)
    ensures v.PInt? ==> |s| > 0 && (s[0] == '-' <==> v.i < 0)
    ensures v.PInt? && v.i < 0 ==> s[1..] == Text.NatToDecimal(-v.i)
    ensures v.PInt? && v.i >= 0 ==>
              (forall k :: 0 <= k < |s| ==> '0' <= s[k] <= '9') && Text.DecimalValue(s) == v.i
  {
    match v
    case PStr(s) => s
    case PBool(b) => if b then "True" else "False"
    case PInt(i) =>
      if i < 0 then Text.NegativeDecimal(i); Text.IntToDecimal(i)
      else Text.DecimalRoundTrip(i); Text.IntToDecimal(i)
  }

  /** Python's truth value of an optional parameter: `None` is false, and a
      boolean (the declared type of `force`) is its own truth value. */
  function Truthy(v: Option<PVal>): (b: bool)
    ensures v.None? ==> !b
    ensures v.Some? && v.value.PBool? ==> (b <==> v.value.b)
  {
    match v
    case None => false
    case Some(PStr(s)) => |s| > 0
    case Some(PBool(b)) => b
    case Some(PInt(i)) => i != 0
  }

  /** `params[name]`, a missing name read as `None`. */
  function Lookup(params: seq<Param>, name: string): Option<PVal>
    decreases |params|
  {
    if |params| == 0 then None
    else if params[0].0 == name then params[0].1
    else Lookup(params[1..], name)
  }

  /** Parameter names are unique, as the keys of a Python dict are. */
  predicate DistinctNames(params: seq<Param>) {
    forall i, j :: 0 <= i < j < |params| ==> params[i].0 != params[j].0
  }

  /** The names present in `params`. */
  function NameSet(params: seq<Param>): set<string> {
    set i | 0 <= i < |params| :: params[i].0
  }

  /** With unique names, looking a name up finds the value stored under it. */
  lemma {:induction false} LookupFinds(params: seq<Param>, i: nat)
    requires DistinctNames(params)
    requires i < |params|
    ensures Lookup(params, params[i].0) == params[i].1
    decreases i
  {
    if i > 0 {
      LookupFinds(params[1..], i - 1);
    }
  }

  /** A name that is not present is looked up as `None`. */
  lemma {:induction false} LookupAbsent(params: seq<Param>, name: string)
    requires name !in NameSet(params)
    ensures Lookup(params, name) == None
    decreases |params|
  {
    if |params| > 0 {
      assert params[0].0 in NameSet(params);
      assert NameSet(params[1..]) <= NameSet(params) by {
        forall n | n in NameSet(params[1..]) ensures n in NameSet(params) {
          var j :| 0 <= j < |params[1..]| && params[1..][j].0 == n;
          assert params[j + 1].0 == n;
        }
      }
      LookupAbsent(params[1..], name);
    }
  }

  /** A name whose every entry is unset is looked up as `None`. */
  lemma {:induction false} LookupUnset(params: seq<Param>, name: string)
    requires forall i :: 0 <= i < |params| && params[i].0 == name ==> params[i].1.None?
    ensures Lookup(params, name) == None
    decreases |params|
  {
    if |params| > 0 && params[0].0 != name {
      assert forall i :: 0 <= i < |params[1..]| ==> params[1..][i] == params[i + 1];
      LookupUnset(params[1..], name);
    }
  }

  /** A value found by a lookup is stored at some position under that name. */
  lemma {:induction false} LookupIndex(params: seq<Param>, name: string) returns (i: nat)
    requires Lookup(params, name).Some?
    ensures i < |params| && params[i].0 == name && params[i].1 == Lookup(params, name)
    decreases |params|
  {
    if params[0].0 == name {
      i := 0;
    } else {
      var k := LookupIndex(params[1..], name);
      i := k + 1;
    }
  }

  /** Removing an entry with another name does not change what a lookup finds. */
  lemma {:induction false} LookupSkips(params: seq<Param>, i: nat, name: string)
    requires i < |params|
    requires params[i].0 != name
    ensures Lookup(params[..i] + params[i + 1..], name) == Lookup(params, name)
    decreases i
  {
    if i == 0 {
      assert params[..0] + params[1..] == params[1..];
    } else {
      LookupSkips(params[1..], i - 1, name);
      assert (params[..i] + params[i + 1..])[1..] == params[1..][..i - 1] + params[1..][i..];
    }
  }

  /**
   * The entry of a schema table: Python source writes a tuple of names, but a
   * single name in parentheses without a trailing comma is a bare string,
   * whose `.count(option)` counts substrings instead of tuple members.
   */
  datatype KeyList = Names(names: seq<string>) | Bare(text: string)

  /** `entry.count(option) > 0`: on a tuple, `option` equals one of its names; on a
      bare string, `option` sits at some position of the text. */
  function Lists(entry: KeyList, option: string): (listed: bool)
    ensures entry.Names? ==> (listed <==> exists i :: 0 <= i < |entry.names| && entry.names[i] == option)
    ensures entry.Bare? ==> (listed <==> exists i :: Text.MatchAt(option, entry.text, i))
  {
    match entry
    case Names(names) => option in names
    case Bare(text) => Text.OccursIffAt(option, text); Text.Occurs(option, text)
  }

  /** An option that differs from every listed name in length or in its first
      character is not listed. */
  lemma NotNamed(names: seq<string>, option: string)
    requires |option| > 0
    requires forall j :: 0 <= j < |names| ==>
               |names[j]| != |option| || (|names[j]| > 0 && names[j][0] != option[0])
    ensures !Lists(Names(names), option)
  {
  }
}

=== FILE: reconciliation.dfy ===
/**
 * The decision procedure both modules' `run_module` share once check mode (and,
 * for the GNS3 server, the interface check) has been passed: skip an existing
 * file unless forced, otherwise merge, compare, and write only on a difference.
 * Reading and writing are not performed here: the loaded configuration and the
 * success of the write are inputs, and the outcome records which of the two
 * the module would have done.
 */
module Reconciliation {
  import opened Wrappers
  import Text

  /** Why a run fails. */
  datatype Failure = InterfaceNotFound(name: string) | WriteFailed

  /** The `changed` flag of `exit_json`, or a `fail_json` call. */
  datatype Status = Unchanged | Changed | Failed(failure: Failure)

  /** What a run reports, whether it read the file, and the configuration handed to
      the writer if it tried to write. */
  datatype Outcome<S> = Outcome(status: Status, readFile: bool, writeAttempt: Option<S>)

  /** The message `fail_json` carries; both modules use the same text for a failed
      write. Its first letter tells the two failures apart, and an interface
      failure quotes the interface name verbatim after `Interface [`. */
  function Message(f: Failure): (msg: string)
    ensures |msg| > 0 && (msg[0] == 'I' <==> f.InterfaceNotFound?)
    ensures f.InterfaceNotFound? ==> Text.MatchAt(f.name, msg, 11) && Text.Occurs(f.name, msg)
    ensures f.InterfaceNotFound? ==>
              msg[..11] == "Interface [" && msg[11 + |f.name|..] == "] introuvable"
  {
    match f
    case InterfaceNotFound(name) =>
      var text := "Interface [" + name + "] introuvable";
      assert text[0] == 'I';
      assert text[11..11 + |name|] == name;
      assert Text.MatchAt(name, text, 11);
      Text.OccursIffAt(name, text);
      text
    case WriteFailed =>
      var text := "Ecriture du fichier " + "de configuration du service docker impossible";
      assert text[0] == 'E';
      text
  }

  /** A run that stops before touching the file. */
  function Exit<S>(): Outcome<S> {
    Outcome(Unchanged, false, None)
  }

  /**
   * An absent file is reconciled against `empty`; a present one only under
   * `force`, against what was read (`onDisk`). The merge of that state is
   * written only when it differs, and `changed` reports a successful write.
   */
  function Reconcile<S(==)>(fileExists: bool, force: bool, onDisk: S, empty: S,
                            merge: S -> S, writeOk: bool): (r: Outcome<S>)
    ensures fileExists && !force ==> r == Exit()
    ensures r.readFile <==> fileExists && force
    ensures !fileExists || force ==>
      var current := if fileExists then onDisk else empty;
      && (r.writeAttempt == if merge(current) == current then None else Some(merge(current)))
      && (r.status == Changed <==> merge(current) != current && writeOk)
      && (r.status == Failed(WriteFailed) <==> merge(current) != current && !writeOk)
      && (r.status == Unchanged <==> merge(current) == current)
  {
    if fileExists && !force then Exit()
    else
      var current := if fileExists then onDisk else empty;
      var merged := merge(current);
      if merged == current then Outcome(Unchanged, fileExists, None)
      else if writeOk then Outcome(Changed, fileExists, Some(merged))
      else Outcome(Failed(WriteFailed), fileExists, Some(merged))
  }
}

=== FILE: text.dfy ===
/**
 * The few Python string operations the two configuration modules rely on:
 * substring search (`str.count(sub) > 0`), `str.split(sep)` with an explicit
 * one-character separator, and the decimal rendering done by `str(int)`.
 */
module Text {

  /** `needle` occurs somewhere in `haystack`; Python's `haystack.count(needle) > 0`
      (an empty needle occurs everywhere, as `"abc".count("")` is 4). */
  predicate Occurs(needle: string, haystack: string)
    decreases |haystack|
  {
    needle <= haystack || (|haystack| > 0 && Occurs(needle, haystack[1..]))
  }

  /** `needle` sits in `haystack` starting at position `i`. */
  predicate MatchAt(needle: string, haystack: string, i: int) {
    0 <= i <= |haystack| - |needle| && haystack[i..i + |needle|] == needle
  }

  /** The recursive search agrees with the positional definition of a substring. */
  lemma {:induction false} OccursIffAt(needle: string, haystack: string)
    ensures Occurs(needle, haystack) <==> exists i :: MatchAt(needle, haystack, i)
    decreases |haystack|
  {
    if needle <= haystack {
      assert MatchAt(needle, haystack, 0);
    } else if |haystack| == 0 {
      assert forall i :: !MatchAt(needle, haystack, i);
    } else {
      OccursIffAt(needle, haystack[1..]);
      var tail := haystack[1..];
      if exists i :: MatchAt(needle, haystack, i) {
        var i :| MatchAt(needle, haystack, i);
        assert i != 0;
        assert tail[i - 1..i - 1 + |needle|] == haystack[i..i + |needle|];
        assert MatchAt(needle, tail, i - 1);
      }
      if exists j :: MatchAt(needle, tail, j) {
        var j :| MatchAt(needle, tail, j);
        assert haystack[j + 1..j + 1 + |needle|] == tail[j..j + |needle|];
        assert MatchAt(needle, haystack, j + 1);
      }
    }
  }

  /** A needle holding a character the haystack lacks cannot occur in it. */
  lemma {:induction false} MissingCharNeverOccurs(needle: string, haystack: string, c: char)
    requires c in needle && c !in haystack
    ensures !Occurs(needle, haystack)
    decreases |haystack|
  {
    if |haystack| > 0 {
      MissingCharNeverOccurs(needle, haystack[1..], c);
    }
  }

  /** A needle longer than the haystack cannot occur in it. */
  lemma {:induction false} LongerNeverOccurs(needle: string, haystack: string)
    requires |needle| > |haystack|
    ensures !Occurs(needle, haystack)
    decreases |haystack|
  {
    if |haystack| > 0 {
      LongerNeverOccurs(needle, haystack[1..]);
    }
  }

  /** Number of occurrences of character `c` in `s`. */
  function CountChar(s: string, c: char): nat
    decreases |s|
  {
    if |s| == 0 then 0 else (if s[0] == c then 1 else 0) + CountChar(s[1..], c)
  }

  /** Python's `s.split(sep)`: the pieces between separators, in order, untrimmed,
      empty pieces kept; there is one more piece than there are separators. */
  function Split(s: string, sep: char): (pieces: seq<string>)
    ensures |pieces| == CountChar(s, sep) + 1
    ensures forall i :: 0 <= i < |pieces| ==> sep !in pieces[i]
    decreases |s|
  {
    if |s| == 0 then [""]
    else
      var rest := Split(s[1..], sep);
      if s[0] == sep then [""] + rest
      else [[s[0]] + rest[0]] + rest[1..]
  }

  /** Python's `sep.join(pieces)`. */
  function Join(pieces: seq<string>, sep: char): string
    decreases |pieces|
  {
    if |pieces| == 0 then ""
    else if |pieces| == 1 then pieces[0]
    else pieces[0] + [sep] + Join(pieces[1..], sep)
  }

  /** Splitting loses nothing: joining the pieces back gives the original text. */
  lemma {:induction false} JoinSplit(s: string, sep: char)
    ensures Join(Split(s, sep), sep) == s
    decreases |s|
  {
    if |s| > 0 {
      JoinSplit(s[1..], sep);
      var rest := Split(s[1..], sep);
      if s[0] == sep {
        assert Split(s, sep) == [""] + rest;
        assert ([""] + rest)[1..] == rest;
      } else {
        var pieces := Split(s, sep);
        assert pieces == [[s[0]] + rest[0]] + rest[1..];
        if |rest| == 1 {
          assert pieces == [[s[0]] + rest[0]];
        } else {
          assert pieces[1..] == rest[1..];
          assert Join(rest, sep) == rest[0] + [sep] + Join(rest[1..], sep);
        }
        assert s == [s[0]] + s[1..];
      }
    }
  }

  /** Splitting `piece + sep + rest`, when `piece` holds no separator, yields
      `piece` followed by the pieces of `rest`. */
  lemma {:induction false} SplitAfterPiece(piece: string, rest: string, sep: char)
    requires sep !in piece
    ensures Split(piece + [sep] + rest, sep) == [piece] + Split(rest, sep)
    decreases |piece|
  {
    var s := piece + [sep] + rest;
    if |piece| == 0 {
      assert s[1..] == rest;
    } else {
      assert s[1..] == piece[1..] + [sep] + rest;
      SplitAfterPiece(piece[1..], rest, sep);
      assert [piece[0]] + piece[1..] == piece;
    }
  }

  /** A text holding no separator splits into itself alone. */
  lemma {:induction false} SplitWithoutSeparator(s: string, sep: char)
    requires sep !in s
    ensures Split(s, sep) == [s]
    decreases |s|
  {
    if |s| > 0 {
      SplitWithoutSeparator(s[1..], sep);
      assert [s[0]] + s[1..] == s;
    }
  }

  /** Joining separator-free pieces and splitting again recovers the pieces. */
  lemma {:induction false} SplitJoin(pieces: seq<string>, sep: char)
    requires |pieces| >= 1
    requires forall i :: 0 <= i < |pieces| ==> sep !in pieces[i]
    ensures Split(Join(pieces, sep), sep) == pieces
    decreases |pieces|
  {
    if |pieces| == 1 {
      SplitWithoutSeparator(pieces[0], sep);
    } else {
      SplitJoin(pieces[1..], sep);
      SplitAfterPiece(pieces[0], Join(pieces[1..], sep), sep);
      assert [pieces[0]] + pieces[1..] == pieces;
    }
  }

  function DigitChar(d: nat): char
    requires d < 10
  {
    "0123456789"[d]
  }

  /** A digit character reads back as its digit. */
  lemma DigitCharValue(d: nat)
    requires d < 10
    ensures (DigitChar(d) as int) - ('0' as int) == d
  {
    if d == 0 {} else if d == 1 {} else if d == 2 {} else if d == 3 {} else if d == 4 {}
    else if d == 5 {} else if d == 6 {} else if d == 7 {} else if d == 8 {} else {}
  }

  /** Python's `str(n)` for a non-negative integer: decimal digits, no leading zero. */
  function NatToDecimal(n: nat): (s: string)
    ensures |s| >= 1
    ensures forall i :: 0 <= i < |s| ==> '0' <= s[i] <= '9'
    ensures s[0] == '0' ==> n == 0
    decreases n
  {
    if n < 10 then [DigitChar(n)] else NatToDecimal(n / 10) + [DigitChar(n % 10)]
  }

  /** Python's `str(n)` for any integer: a minus sign before the digits of `-n`. */
  function IntToDecimal(n: int): string {
    if n < 0 then "-" + NatToDecimal(-n) else NatToDecimal(n)
  }

  /** A negative integer is written as `-` followed by the decimal text of its
      magnitude. */
  lemma NegativeDecimal(n: int)
    requires n < 0
    ensures |IntToDecimal(n)| > 1 && IntToDecimal(n)[0] == '-'
    ensures IntToDecimal(n)[1..] == NatToDecimal(-n)
  {
    var d := NatToDecimal(-n);
    assert IntToDecimal(n) == "-" + d;
    assert ("-" + d)[1..] == d;
  }

  /** The value of a string of decimal digits. */
  function DecimalValue(s: string): nat
    requires forall i :: 0 <= i < |s| ==> '0' <= s[i] <= '9'
    decreases |s|
  {
    if |s| == 0 then 0
    else DecimalValue(s[..|s| - 1]) * 10 + ((s[|s| - 1] as int) - ('0' as int))
  }

  /** The decimal rendering reads back as the same number. */
  lemma {:induction false} DecimalRoundTrip(n: nat)
    ensures DecimalValue(NatToDecimal(n)) == n
    decreases n
  {
    if n < 10 {
      DigitCharValue(n);
    } else {
      DecimalRoundTrip(n / 10);
      DigitCharValue(n % 10);
      var s := NatToDecimal(n);
      assert s[..|s| - 1] == NatToDecimal(n / 10);
    }
  }
}

=== FILE: wrappers.dfy ===
/** Optional values, used for Python's `None` and for absent map entries. */
module Wrappers {

  datatype Option<+T> = None | Some(value: T) {

    /** This option if it holds a value, otherwise `other`. */
    function OrElse(other: Option<T>): Option<T> {
      match this
      case Some(_) => this
      case None => other
    }
  }
}

=== FILE: write_lists.dfy ===
/**
 * Both merges apply, parameter after parameter, a list of "set this key to this
 * value" writes. This module gives that list its declarative meaning: the value
 * of a key afterwards is the last write to it, or what was there before.
 */
module WriteLists {
  import opened Wrappers

  /** The value of the last write to `k` in `ws`, if any write targets `k`. */
  function LastWrite<K(==), V>(ws: seq<(K, V)>, k: K): Option<V>
    decreases |ws|
  {
    if |ws| == 0 then None
    else if ws[|ws| - 1].0 == k then Some(ws[|ws| - 1].1)
    else LastWrite(ws[..|ws| - 1], k)
  }

  /** No write targets `k`: nothing is found. */
  lemma {:induction false} LastWriteAbsent<K, V>(ws: seq<(K, V)>, k: K)
    requires forall i :: 0 <= i < |ws| ==> ws[i].0 != k
    ensures LastWrite(ws, k) == None
    decreases |ws|
  {
    if |ws| > 0 {
      LastWriteAbsent(ws[..|ws| - 1], k);
    }
  }

  /** The write at `i` targets `k` and no later one does: its value is found. */
  lemma {:induction false} LastWriteAt<K, V>(ws: seq<(K, V)>, i: nat, k: K)
    requires i < |ws| && ws[i].0 == k
    requires forall j :: i < j < |ws| ==> ws[j].0 != k
    ensures LastWrite(ws, k) == Some(ws[i].1)
    decreases |ws|
  {
    if i < |ws| - 1 {
      LastWriteAt(ws[..|ws| - 1], i, k);
    }
  }

  /** In a concatenation the later list's writes win. */
  lemma {:induction false} LastWriteConcat<K, V>(a: seq<(K, V)>, b: seq<(K, V)>, k: K)
    ensures LastWrite(a + b, k) == LastWrite(b, k).OrElse(LastWrite(a, k))
    decreases |b|
  {
    if |b| > 0 {
      assert (a + b)[..|a + b| - 1] == a + b[..|b| - 1];
      LastWriteConcat(a, b[..|b| - 1], k);
    } else {
      assert a + b == a;
    }
  }

  /** The writes every parameter produces, concatenated in parameter order. */
  function Collect<P, K(==), V>(ps: seq<P>, f: P -> seq<(K, V)>): seq<(K, V)>
    decreases |ps|
  {
    if |ps| == 0 then [] else f(ps[0]) + Collect(ps[1..], f)
  }

  /** Collecting over a concatenation concatenates the collected writes. */
  lemma {:induction false} CollectConcat<P, K, V>(a: seq<P>, b: seq<P>, f: P -> seq<(K, V)>)
    ensures Collect(a + b, f) == Collect(a, f) + Collect(b, f)
    decreases |a|
  {
    if |a| > 0 {
      assert (a + b)[1..] == a[1..] + b;
      CollectConcat(a[1..], b, f);
    } else {
      assert a + b == b;
    }
  }

  /** A parameter that writes nothing can be dropped from the collection. */
  lemma CollectSkip<P, K, V>(ps: seq<P>, f: P -> seq<(K, V)>, i: nat)
    requires i < |ps| && f(ps[i]) == []
    ensures Collect(ps[..i] + ps[i + 1..], f) == Collect(ps, f)
  {
    var before, after := ps[..i], ps[i + 1..];
    assert ps == (before + [ps[i]]) + after;
    CollectConcat(before + [ps[i]], after, f);
    CollectConcat(before, [ps[i]], f);
    assert Collect([ps[i]], f) == [] by {
      assert [ps[i]][1..] == [];
    }
    assert Collect(before + [ps[i]], f) == Collect(before, f);
    CollectConcat(before, after, f);
  }

  /** When no parameter writes `k`, the collected writes do not either. */
  lemma {:induction false} CollectUntouched<P, K, V>(ps: seq<P>, f: P -> seq<(K, V)>, k: K)
    requires forall j :: 0 <= j < |ps| ==> LastWrite(f(ps[j]), k) == None
    ensures LastWrite(Collect(ps, f), k) == None
    decreases |ps|
  {
    if |ps| > 0 {
      CollectUntouched(ps[1..], f, k);
      LastWriteConcat(f(ps[0]), Collect(ps[1..], f), k);
    }
  }

  /** When the parameter at `i` is the only one writing `k`, its write decides `k`. */
  lemma {:induction false} CollectOwner<P, K, V>(ps: seq<P>, f: P -> seq<(K, V)>, i: nat, k: K)
    requires i < |ps|
    requires forall j :: 0 <= j < |ps| && j != i ==> LastWrite(f(ps[j]), k) == None
    ensures LastWrite(Collect(ps, f), k) == LastWrite(f(ps[i]), k)
    decreases |ps|
  {
    LastWriteConcat(f(ps[0]), Collect(ps[1..], f), k);
    if i == 0 {
      CollectUntouched(ps[1..], f, k);
    } else {
      CollectOwner(ps[1..], f, i - 1, k);
    }
  }

  /** `m[k]` as an option. */
  function MapGet<K(==), V>(m: map<K, V>, k: K): Option<V> {
    if k in m then Some(m[k]) else None
  }

  /** Two maps that agree on every key are equal. */
  lemma MapExtensional<K, V>(a: map<K, V>, b: map<K, V>)
    requires forall k :: MapGet(a, k) == MapGet(b, k)
    ensures a == b
  {
    assert a.Keys == b.Keys by {
      forall k ensures k in a <==> k in b {
        assert MapGet(a, k) == MapGet(b, k);
      }
    }
    forall k | k in a ensures a[k] == b[k] {
      assert MapGet(a, k) == MapGet(b, k);
    }
  }

  /** Applies the writes to a flat map in order (`m[k] = v` for each). */
  function ApplyFlat<K(==), V>(m: map<K, V>, ws: seq<(K, V)>): (r: map<K, V>)
    ensures m.Keys <= r.Keys
    decreases |ws|
  {
    if |ws| == 0 then m else ApplyFlat(m, ws[..|ws| - 1])[ws[|ws| - 1].0 := ws[|ws| - 1].1]
  }

  /** After the writes, a key holds its last write, or its old value if none targets it. */
  lemma {:induction false} ApplyFlatGet<K, V>(m: map<K, V>, ws: seq<(K, V)>, k: K)
    ensures MapGet(ApplyFlat(m, ws), k) == LastWrite(ws, k).OrElse(MapGet(m, k))
    decreases |ws|
  {
    if |ws| > 0 {
      ApplyFlatGet(m, ws[..|ws| - 1], k);
    }
  }

  /** Applying the same writes a second time changes nothing. */
  lemma ApplyFlatTwice<K, V>(m: map<K, V>, ws: seq<(K, V)>)
    ensures ApplyFlat(ApplyFlat(m, ws), ws) == ApplyFlat(m, ws)
  {
    var once := ApplyFlat(m, ws);
    forall k ensures MapGet(ApplyFlat(once, ws), k) == MapGet(once, k) {
      ApplyFlatGet(once, ws, k);
      ApplyFlatGet(m, ws, k);
    }
    MapExtensional(ApplyFlat(once, ws), once);
  }
}
